=== FILE: README.md ===
# Interactive Brokers trading bot — Dafny model of the trading core

This project models the core of a small Python trading bot for the Interactive
Brokers gateway (TWS or IB Gateway). The parts modelled are:

- **The client (`IBClient`)**:
  - it collects historical bars in a queue until the end-of-data callback;
  - it drains the queue into a bar list that is never cleared;
  - it forwards the three historical-data callbacks to the trader;
  - it waits for and retries the connection;
  - it provides the free function `replace_in_queue`.
- **The trader (`Trader`)**:
  - the port map;
  - the request-id generator;
  - the historical request it records;
  - the conversion of a bar to a row, with its epoch-second date rendered as UTC text;
  - the price table keyed by (symbol, date): end-of-data appends a batch to it, and each update upserts a bar;
  - the warm-up gate in front of the strategy.
- **The strategy (`SimpleStrategy`)**: 10- and 30-bar rolling means over the last 60 closes, without the newest, and the buy / sell / do-nothing decision on a crossing.
- **The contract catalogue (`MyContracts`)**: its six constructors.

Modules, one per file:

| module | file | what it holds |
|---|---|---|
| `Basics` | basics.dfy | `Option`, `Result`, the exceptions the model raises (`Error`), and in-order evaluation of a sequence of results |
| `Digits` | digits.dfy | base-ten digit strings, zero padding, and Python's `int()` on a bar's date text |
| `CivilTime` | civil_time.dfy | proleptic Gregorian calendar, `utcfromtimestamp` and its inverse, `%Y-%m-%d %H:%M:%S` formatting and parsing, and the POSIX seconds-since-the-epoch formula (section 4.16 of the POSIX base definitions) |
| `Bars` | bars.dfy | `convert_one_bar_to_dict` and the list conversion of `convert_bars_to_df` |
| `Series` | series.dfy | the price table: `DataFrame.update` plus the append of absent keys, batch concatenation, and the close column |
| `Contracts` | contracts.dfy | the six `MyContracts` constructors |
| `Strategy` | strategy.dfy | rolling means, the 60-value window, and the crossover decision |
| `Client` | client.dfy | `replace_in_queue`, the queue and bar list, the callback forwarding, `wait_for_connection`, and `make_connection` under its retry decorator |
| `Trader` | trader.dfy | port map, request ids, the historical and realtime requests, and the three historical-data handlers |
| `Session` | session.dfy | a client and its trader wired together as the trader's constructor wires them |

How Python's behaviour is represented:

- **Values**
  - Prices are exact `real`s. Volumes and counts are `int`s.
  - A pandas NaN mean (fewer values than the window) is `None`.
  - Exceptions are `Err` values of `Result`, or the `Raised` effect of a handler.
- **Tables**
  - A DataFrame indexed by (symbol, date) is a sequence of rows in row order.
  - Duplicate keys are allowed, as pandas allows them.
- **Gateway answers**
  - `isConnected()` answers are oracle functions passed in as parameters: one answer per check, or per (attempt, check).
  - `Config`'s four ports are a parameter.

Behaviour worth knowing, which the model follows as written:

- **An end-of-data batch is appended as it is.** Delivering it twice duplicates every row. Because the client's bar list is never cleared, a second end-of-data re-sends every earlier bar (`Session.SecondEndDuplicatesRows`).
- **The table is never sorted.** Rows stay in arrival order, and updates for new keys go last.
- **An empty end-of-data batch raises.** A frame built from no bars has no `date` column to index on.
- **Every request goes out with id 1.** Each call builds a fresh generator and takes its first id; this is also the id the two cancel calls use.
- **`wait_for_connection` checks up to twelve times and sleeps eleven times before raising**, because the guard is `slept > 10`.
- **The readiness gate is strict and counts every row of the table, the newest included.** The strategy runs when `len - 1 > warmup`.

## Model

| member | source | states |
|---|---|---|
| Digits.ParseInt | bots/my_ib/trader.py:110 | `int()` on date text succeeds exactly for an optional sign followed by ASCII digits |
| Digits.ParseShowInt | bots/my_ib/trader.py:110 | every integer date the gateway renders as text parses back to itself |
| CivilTime.YearOf | bots/my_ib/trader.py:110 | the year found for a day number is the one whose first day is at or before it and whose successor's first day is after it |
| CivilTime.DateOf | bots/my_ib/trader.py:110 | the civil date of a day number is a valid date with exactly that day number |
| CivilTime.DateOfDayNumber | bots/my_ib/trader.py:110 | a valid date's day number is in range, and converting it back gives the same date |
| CivilTime.FromEpoch | bots/my_ib/trader.py:110 | `utcfromtimestamp` succeeds exactly for seconds in years 1 through 9999, and the civil time it gives is valid and converts back to the same second |
| CivilTime.FromToEpoch | bots/my_ib/trader.py:110 | every valid civil time is what `utcfromtimestamp` yields for its epoch second (round trip the other way) |
| CivilTime.Format | bots/my_ib/trader.py:110 | the `%Y-%m-%d %H:%M:%S` text is 19 characters long |
| CivilTime.ParseFormat | bots/my_ib/trader.py:110 | the formatted text parses back to the same civil time, so no information is lost |
| CivilTime.UtcTimestamp | bots/my_ib/trader.py:110 | the date string exists exactly in the supported range, is 19 characters, and parses back to a valid civil time at the same epoch second |
| CivilTime.UtcTimestampInjective | bots/my_ib/trader.py:110 | two different epoch seconds never produce the same date string, so the table key keeps the second |
| CivilTime.ToEpochIsPosix | bots/my_ib/trader.py:110 | for years from 1970 on, the conversion agrees with the POSIX seconds-since-the-epoch formula with truncating division |
| Bars.TruncateToInt | bots/my_ib/trader.py:115 | `int(volume)` truncates toward zero: the result is the integer between 0 and the value that is less than one away |
| Bars.ConvertOneBar | bots/my_ib/trader.py:107-118 | a converted bar carries open, high, low, close, wap and count unchanged and the truncated volume |
| Bars.ConvertOneBarDate | bots/my_ib/trader.py:110 | conversion fails with a ValueError for a non-integer date and with an out-of-range error outside years 1 to 9999; otherwise the date is the UTC text of that second |
| Basics.FirstErr | bots/my_ib/trader.py:121-124 | the first failed result in a sequence: every earlier result succeeded, and it is the length when none failed |
| Basics.AllOk | bots/my_ib/trader.py:121-124 | evaluating results in order gives all values exactly when none failed, element by element, else the first failure's error |
| Bars.FirstFailure | bots/my_ib/trader.py:121-124 | the index of the first bar whose conversion fails: every bar before it converts |
| Bars.ConvertBars | bots/my_ib/trader.py:120-125 | the list conversion succeeds exactly when every bar converts, element by element; otherwise it raises the first failing bar's error |
| Bars.ConvertShownDate | bots/my_ib/trader.py:110 | a bar whose date is an in-range epoch second always converts, and its date text denotes that same second |
| Series.Lookup | bots/my_ib/trader.py:62 | looking up a (symbol, date) key finds nothing exactly when no row has that key |
| Series.Overwrite | bots/my_ib/trader.py:154 | `DataFrame.update` replaces every row whose key matches, keeps all other rows, and keeps the length |
| Series.Upsert | bots/my_ib/trader.py:153-158 | an existing key is overwritten in place with the length unchanged; a new key is appended at the end; other rows are untouched; the key is present afterwards |
| Series.UpsertPresentChangesOneRow | bots/my_ib/trader.py:154 | in a table with unique keys, updating an existing key changes exactly that one row |
| Series.UpsertKeepsUnique | bots/my_ib/trader.py:156-158 | an upsert preserves key uniqueness |
| Series.UpsertLookup | bots/my_ib/trader.py:153-158 | after an upsert, the key maps to the new bar and every other key maps to what it did before (map update) |
| Series.UpsertLastWriteWins | bots/my_ib/trader.py:153-158 | two upserts of the same key leave the table as the second alone would |
| Series.BatchRows | bots/my_ib/trader.py:129-133 | each converted bar becomes one row keyed by the request's symbol and the bar's date, in order |
| Series.AppendBatch | bots/my_ib/trader.py:135 | concatenation keeps the old rows as a prefix and puts the batch after them in order |
| Series.AppendBatchTwiceDuplicates | bots/my_ib/trader.py:135 | appending a non-empty batch a second time grows the table again and leaves duplicate keys: batches are not idempotent |
| Series.Closes | bots/my_ib/strategy.py:23 | the close column has one value per row, in row order |
| Contracts.USStock | bots/my_ib/contracts.py:6-15 | stock on ARCA in USD with the given symbol, SPY by default, and no primary exchange |
| Contracts.EthUsdCrypto | bots/my_ib/contracts.py:17-24 | ETH crypto on PAXOS in USD |
| Contracts.USStockWithPrimaryExch | bots/my_ib/contracts.py:26-36 | stock routed via SMART in USD with the given symbol and primary exchange, SPY and ARCA by default |
| Contracts.USStockAtSmart | bots/my_ib/contracts.py:38-45 | stock via SMART in USD with the given symbol, IBM by default |
| Contracts.Etf | bots/my_ib/contracts.py:47-54 | stock via SMART in USD with the given symbol, QQQ by default |
| Contracts.EurGbpFx | bots/my_ib/contracts.py:56-64 | EUR cash pair on IDEALPRO quoted in GBP |
| Contracts.AtSmartIsEtf | bots/my_ib/contracts.py:38-54 | the SMART equity and the ETF constructors agree on every symbol; they differ only in their default symbols |
| Contracts.OnlyFxIsNotUsd | bots/my_ib/contracts.py:6-64 | the FX pair is the only instrument in the catalogue not quoted in USD |
| Strategy.Window | bots/my_ib/strategy.py:23 | `iloc[-60:-1]` holds the last (at most 60) closes without the newest, in order; its last value is the second-newest close |
| Strategy.RollingMean | bots/my_ib/strategy.py:18-19 | a rolling mean exists exactly from the position where a full window is available |
| Strategy.RollingMeans | bots/my_ib/strategy.py:18-19 | the rolling series has one entry per value, each the rolling mean at that position |
| Strategy.SlidingMeans | bots/my_ib/strategy.py:18-19 | a one-pass running sum gives the same series as the rolling-window definition |
| Strategy.Delta | bots/my_ib/strategy.py:30-31 | the difference of the means exists only when both means do, and its sign is the order of the two means |
| Strategy.Decide | bots/my_ib/strategy.py:32-41 | buy exactly when both deltas exist and the delta turned positive from negative, sell exactly on the reverse, otherwise do nothing (a missing or zero delta included) |
| Strategy.Run | bots/my_ib/strategy.py:21-41 | the run raises an index error exactly when the window has fewer than two values |
| Strategy.RunBuysOnUpCrossing | bots/my_ib/strategy.py:21-38 | the run buys exactly when the window has at least 31 values and the 10-value mean has just crossed above the 30-value mean |
| Strategy.RunSellsOnDownCrossing | bots/my_ib/strategy.py:21-40 | the run sells exactly when the 10-value mean has just crossed below the 30-value mean |
| Strategy.WarmedUpRunDecides | bots/my_ib/trader.py:161-163 | with more than 31 rows, both long means the decision needs exist, and the run decides without error |
| Strategy.RunStrategy | bots/my_ib/strategy.py:8-9 | the base strategy decides nothing; the crossover strategy decides as its run does |
| Client.ReplaceInQueue | bots/my_ib/client.py:157-175 | reports a replacement exactly when some entry has the same request id and bar date; then only the first such entry is replaced, and otherwise the new entry is appended at the tail |
| Client.HistoricalData | bots/my_ib/client.py:39-45 | a historical bar is queued at the tail and forwarded exactly when the trader's callback is set |
| Client.DrainInto | bots/my_ib/client.py:49-50 | draining appends the queued bars, in arrival order, after the bars already held |
| Client.HistoricalDataEnd | bots/my_ib/client.py:47-54 | end-of-data empties the queue onto the end of the never-cleared bar list and forwards the whole list |
| Client.HistoricalDataUpdate | bots/my_ib/client.py:56-65 | an update changes neither the queue nor the bar list, only forwards the bar |
| Client.EndReplaysAccumulatedBars | bots/my_ib/client.py:47-54 | a second end-of-data with nothing queued in between forwards the same bars again |
| Client.WaitForConnection | bots/my_ib/client.py:108-122 | returns at the first check that sees the connection, and raises after eleven sleeps when none of the twelve checks does |
| Client.MakeConnection | bots/my_ib/client.py:124-140 | an attempt that finds the client connected returns without connecting; otherwise it connects and waits; all three attempts fail exactly when every one of them fails |
| Trader.Port | bots/my_ib/trader.py:185-193 | the port lookup never misses and picks the paper or live port of the chosen gateway |
| Trader.PortInjective | bots/my_ib/trader.py:185-193 | with four distinct configured ports, different (paper, platform) choices reach different ports |
| Trader.Yields | bots/my_ib/trader.py:25-29 | the generator yields consecutive ids starting from its current one |
| Trader.FreshIdsCountFromOne | bots/my_ib/trader.py:25-29 | a fresh generator yields 1, 2, 3 and so on, strictly increasing |
| Trader.RequestId | bots/my_ib/trader.py:72 | taking the first id of a fresh generator always gives the id the cancel calls use |
| Trader.NewTrader | bots/my_ib/trader.py:34-63 | a new trader has an empty table, no requests and no strategy, with warm-up 30 by default |
| Trader.HistoricalRequestFor | bots/my_ib/trader.py:91-103 | the recorded request uses id 1, the trader's contract, epoch-second dates and keep-up-to-date |
| Trader.HistoricalAttempt | bots/my_ib/trader.py:77-105 | retrying from an attempt succeeds exactly when a later attempt within the three is connected |
| Trader.GetHistoricalData | bots/my_ib/trader.py:77-105 | succeeds exactly when one of the three attempts is connected; it then records the request under id 1 and leaves table, strategy, contract and warm-up as they were; otherwise it raises |
| Trader.GetRealtimeData | bots/my_ib/trader.py:67-75 | raises when not connected; otherwise requests with id 1 |
| Trader.HistoricalDataUpdateEvent | bots/my_ib/trader.py:140-163 | conversion errors, then unknown requests, raise with the table untouched; otherwise the bar is upserted and the strategy runs exactly when the gate holds: a gated run without a strategy raises, and with one the outcome is the strategy's decision or its exception |
| Trader.SetStrategy | bots/my_ib/trader.py:195-196 | the strategy is set and the table, requests, contract and warm-up are unchanged |
| Trader.Ready | bots/my_ib/trader.py:161-162 | the readiness gate: more rows than the warm-up period, not counting the newest |
| Trader.UpdateKeepsGateOpen | bots/my_ib/trader.py:153-162 | the gate opens at warm-up + 2 rows, and once open an update never closes it again |
| Trader.WarmedUpUpdateDecides | bots/my_ib/trader.py:161-163 | with the crossover strategy and a warm-up of at least 30, an update reaches a decision exactly when the gate holds |
| Trader.UpdateLastWriteWins | bots/my_ib/trader.py:153-158 | two updates for one request and date leave the table as the later alone would, holding the later values |
| Trader.HistoricalDataEndEvent | bots/my_ib/trader.py:127-138 | unknown requests, conversion failures and empty batches raise with the table untouched; otherwise the tagged batch is appended; the strategy never runs |
| Trader.HistoricalDataEvent | bots/my_ib/trader.py:165-167 | a historical bar never changes the trader; it raises exactly when the bar does not convert |
| Session.NewSession | bots/my_ib/trader.py:40-46 | the trader builds its client with all three historical callbacks, an empty queue and an empty bar list |
| Session.OnHistoricalData | bots/my_ib/client.py:39-45 | a historical bar grows the client's queue by one and changes neither the bar list nor the trader |
| Session.OnHistoricalDataEnd | bots/my_ib/client.py:47-54 | end-of-data empties the queue and hands the trader the client's whole accumulated bar list |
| Session.OnHistoricalDataUpdate | bots/my_ib/client.py:56-65 | an update leaves the client unchanged and upserts the bar into the trader's table |
| Session.SecondEndDuplicatesRows | bots/my_ib/client.py:49-54 | a second end-of-data appends the accumulated bars again, leaving duplicate keys |

## Left out

- Threads: `run_in_thread`, `run`, `stop_thread`, and the concurrency between the API thread and the trader. The model applies callbacks one at a time.
- The retry decorators' delays and backoff (5 s doubling, 2 s doubling) and the one-second sleeps. Only the number of attempts and checks is modelled.
- Logging and printing, `setproctitle`, and the process title.
- `random.randint` for the client id. It only names the connection, so it is not modelled.
- `connect`, `reqHistoricalData`, `reqRealTimeBars`, `cancelRealTimeBars`, `cancelHistoricalData` and `disconnect` are foreign gateway calls. Their effects beyond the recorded request and the id used are not modelled.
- `real_time_bar_event` and `realtimeBar`: the handler only formats a time and discards it. Realtime bars never reach the price table. `realtimeBar` calls its callback unconditionally, so a client built without one would raise a TypeError there.
- `updatePortfolio`, `accountSummary`, `nextValidId` and `nextOrderId`: bookkeeping outside the trading core.
- `error`: it only prints.
- `buy`, `sell` and `do_nothing` are logging stubs. The model returns the decision as a `Signal` instead.
- `Config` loading from the environment (`load_dotenv`, `int(os.getenv(...))`): the four ports are a parameter.
- Floating point: prices are exact reals, so rounding in the rolling means is not modelled.
- pandas dtypes: the table's column types and the `count` column's float cast.
- pandas NaN-skipping in `update`: converted bars never hold NaN in this model.
- Digits.ParseInt: Python's `int()` also accepts surrounding whitespace, underscores between digits and non-ASCII digits. The model accepts only an optional sign and ASCII digits and treats everything else as a ValueError.
- Trader.SetStrategy: a strategy is identified by its class and assumed built on the trader that holds it, as bots/my_ib/trader.py:246-248 does. A SimpleStrategy built on a different trader would read that trader's table, which the model cannot express.
- CivilTime.Format: always pads the year to four digits. The C library's `%Y` does not pad years below 1000.
- The chart code and the Node.js backend: they are outside the trading core.
- `Trader.__init__` connecting in a thread: modelled only as the client construction (`Session.NewSession`).

=== FILE: bars.dfy ===
/** Bars as the gateway delivers them (ibapi's BarData) and as the trader keeps
    them (the dictionary convert_one_bar_to_dict builds). */
module Bars {
  import opened Basics
  import Digits
  import CivilTime

  /** One bar from the gateway. `date` is text: with formatDate 2 it holds the
      bar's start as seconds since the epoch. Volume and WAP are decimals. */
  datatype RawBar = RawBar(
    date: string,
    open: real, high: real, low: real, close: real,
    volume: real, wap: real, barCount: int)

  /** The price columns of one row of the trader's table. */
  datatype BarRecord = BarRecord(
    open: real, high: real, low: real, close: real,
    volume: int, wap: real, count: int)

  /** What convert_one_bar_to_dict returns: the UTC timestamp text and the values. */
  datatype BarDict = BarDict(date: string, record: BarRecord)

  /** Python's int() on a decimal: truncation toward zero. */
  function TruncateToInt(x: real): (r: int)
    ensures 0.0 <= x ==> 0 <= r && r as real <= x < r as real + 1.0
    ensures x < 0.0 ==> r <= 0 && r as real - 1.0 < x <= r as real
  {
    if 0.0 <= x then x.Floor else -((-x).Floor)
  }

  /** convert_one_bar_to_dict: parse the date text as epoch seconds, render it
      as UTC 'YYYY-MM-DD HH:MM:SS', truncate the volume, copy the rest. */
  function ConvertOneBar(b: RawBar): (r: Result<BarDict>)
    ensures r.Ok? ==>
      && r.value.record.open == b.open && r.value.record.high == b.high
      && r.value.record.low == b.low && r.value.record.close == b.close
      && r.value.record.wap == b.wap && r.value.record.count == b.barCount
      && r.value.record.volume == TruncateToInt(b.volume)
  {
    match Digits.ParseInt(b.date)
    case None => Err(InvalidLiteral)
    case Some(t) =>
      match CivilTime.UtcTimestamp(t)
      case None => Err(DateOutOfRange)
      case Some(text) =>
        Ok(BarDict(text, BarRecord(b.open, b.high, b.low, b.close, TruncateToInt(b.volume), b.wap, b.barCount)))
  }

  /** The date column: text that is not an integer raises ValueError; an integer
      outside datetime's years raises too; otherwise the 19-character UTC
      timestamp whose fields give back the very epoch second. */
  lemma ConvertOneBarDate(b: RawBar)
    ensures Digits.ParseInt(b.date).None? ==> ConvertOneBar(b) == Err(InvalidLiteral)
    ensures Digits.ParseInt(b.date).Some? ==>
      var t := Digits.ParseInt(b.date).value;
      var r := ConvertOneBar(b);
      && (r.Err? <==> !(CivilTime.MinEpochSecond <= t <= CivilTime.MaxEpochSecond))
      && (r.Err? ==> r.error == DateOutOfRange)
      && (r.Ok? ==> |r.value.date| == 19
                    && CivilTime.Parse(r.value.date).Some?
                    && CivilTime.Valid(CivilTime.Parse(r.value.date).value)
                    && CivilTime.ToEpoch(CivilTime.Parse(r.value.date).value) == t)
  {
    match Digits.ParseInt(b.date)
    case None =>
    case Some(t) => var _ := CivilTime.UtcTimestamp(t);
  }

  /** Every bar's conversion, in order. */
  function Conversions(bars: seq<RawBar>): (rs: seq<Result<BarDict>>)
    ensures |rs| == |bars| && forall i :: 0 <= i < |bars| ==> rs[i] == ConvertOneBar(bars[i])
  {
    seq(|bars|, i requires 0 <= i < |bars| => ConvertOneBar(bars[i]))
  }

  /** The index of the first bar that does not convert, |bars| if all do. */
  function FirstFailure(bars: seq<RawBar>): (k: nat)
    ensures k <= |bars|
    ensures forall j :: 0 <= j < k ==> ConvertOneBar(bars[j]).Ok?
    ensures k < |bars| ==> ConvertOneBar(bars[k]).Err?
  {
    var rs := Conversions(bars);
    var k := FirstErr(rs);
    assert forall j :: 0 <= j < k ==> rs[j].Ok?;
    k
  }

  /** The list comprehension of convert_bars_to_df: every bar converted in
      order, or the exception of the first bar that fails. */
  function ConvertBars(bars: seq<RawBar>): (r: Result<seq<BarDict>>)
    ensures r.Ok? <==> FirstFailure(bars) == |bars|
    ensures r.Ok? ==> |r.value| == |bars|
                      && forall i :: 0 <= i < |bars| ==> Ok(r.value[i]) == ConvertOneBar(bars[i])
    ensures r.Err? ==> Err(r.error) == ConvertOneBar(bars[FirstFailure(bars)])
  {
    AllOk(Conversions(bars))
  }

  /** A bar whose date text came from an in-range epoch second converts, and its
      timestamp text reads back as that second. */
  lemma ConvertShownDate(b: RawBar, t: int)
    requires b.date == Digits.ShowInt(t)
    requires CivilTime.MinEpochSecond <= t <= CivilTime.MaxEpochSecond
    ensures ConvertOneBar(b).Ok?
    ensures CivilTime.ToEpoch(CivilTime.Parse(ConvertOneBar(b).value.date).value) == t
  {
    Digits.ParseShowInt(t);
  }
}

=== FILE: basics.dfy ===
/** Shared wrappers: an optional value, and a result that either carries a value
    or names the Python exception the trading client would have raised. */
module Basics {

  datatype Option<+T> = None | Some(value: T)

  /** The exceptions the modelled code paths can raise, by cause. */
  datatype Error =
    | InvalidLiteral            // int(bar.date) on text that is not an integer literal
    | DateOutOfRange            // utcfromtimestamp outside years 1..9999
    | UnknownRequest(reqId: int) // self.requests[reqId] on an id never requested
    | MissingDateColumn         // set_index(['symbol', 'date']) on a frame built from no bars
    | NoStrategy                // self.strategy.run() while no strategy is set
    | WindowTooShort            // .iloc[-1] / .iloc[-2] on a too-short moving-average series
    | NotConnected              // "Connection to IBKR is not established"

  datatype Result<+T> = Ok(value: T) | Err(error: Error)

  /** The index of the first failed result, |rs| if none failed. */
  function FirstErr<T>(rs: seq<Result<T>>): (k: nat)
    ensures k <= |rs|
    ensures forall j :: 0 <= j < k ==> rs[j].Ok?
    ensures k < |rs| ==> rs[k].Err?
  {
    if rs == [] then 0
    else if rs[0].Err? then 0
    else
      var k := 1 + FirstErr(rs[1..]);
      assert forall j :: 1 <= j < k ==> rs[j] == rs[1..][j - 1];
      k
  }

  /** Evaluating results in order and stopping at the first failure: all the
      values when every result succeeded, else the first failure's error. */
  function AllOk<T>(rs: seq<Result<T>>): (r: Result<seq<T>>)
    ensures r.Ok? <==> FirstErr(rs) == |rs|
    ensures r.Ok? ==> |r.value| == |rs| && forall i :: 0 <= i < |rs| ==> rs[i] == Ok(r.value[i])
    ensures r.Err? ==> FirstErr(rs) < |rs| && r.error == rs[FirstErr(rs)].error
  {
    if rs == [] then Ok([])
    else
      match rs[0]
      case Err(e) => Err(e)
      case Ok(v) =>
        var rest := AllOk(rs[1..]);
        assert forall j :: 1 <= j < |rs| ==> rs[j] == rs[1..][j - 1];
        match rest
        case Err(e) => Err(e)
        case Ok(vs) => Ok([v] + vs)
  }
}

=== FILE: civil_time.dfy ===
/** UTC civil time from seconds since the Unix epoch, as Python's
    datetime.utcfromtimestamp(t).strftime('%Y-%m-%d %H:%M:%S') computes it:
    no leap seconds (the "Seconds Since the Epoch" definition of section 4.16 of
    the POSIX.1-2017 Base Definitions) over the proleptic Gregorian calendar,
    restricted to the years 1..9999 that a Python datetime can hold. */
module CivilTime {
  import opened Basics
  import Digits

  const SecondsPerDay: int := 86400
  /** Days from 0001-01-01 to 1970-01-01. */
  const UnixEpochDay: int := 719162
  /** Days from 0001-01-01 to 10000-01-01, the first day past datetime.max. */
  const EndOfYear9999: int := 3652059
  /** 0001-01-01 00:00:00 and 9999-12-31 23:59:59 as epoch seconds. */
  const MinEpochSecond: int := -62135596800
  const MaxEpochSecond: int := 253402300799

  datatype Civil = Civil(year: int, month: int, day: int, hour: int, minute: int, second: int)

  predicate IsLeap(y: int) {
    y % 4 == 0 && (y % 100 != 0 || y % 400 == 0)
  }

  function DaysInYear(y: int): int {
    if IsLeap(y) then 366 else 365
  }

  function DaysInMonth(y: int, m: int): int
    requires 1 <= m <= 12
  {
    if m == 2 then (if IsLeap(y) then 29 else 28)
    else if m == 4 || m == 6 || m == 9 || m == 11 then 30
    else 31
  }

  /** Days from 0001-01-01 to the first day of year `y`. */
  function DaysBeforeYear(y: int): int
    requires 1 <= y
  {
    var p := y - 1;
    365 * p + p / 4 - p / 100 + p / 400
  }

  /** Days from the first of January of year `y` to the first day of month `m`
      (month 13 standing for the next first of January). */
  function DaysBeforeMonth(y: int, m: int): int
    requires 1 <= m <= 13
  {
    var cumulative := [0, 31, 59, 90, 120, 151, 181, 212, 243, 273, 304, 334, 365];
    cumulative[m - 1] + (if m > 2 && IsLeap(y) then 1 else 0)
  }

  /** A calendar date of a year datetime can hold; the time fields are ignored. */
  predicate ValidDate(c: Civil) {
    && 1 <= c.year <= 9999
    && 1 <= c.month <= 12
    && 1 <= c.day <= DaysInMonth(c.year, c.month)
  }

  predicate Valid(c: Civil) {
    && ValidDate(c)
    && 0 <= c.hour < 24
    && 0 <= c.minute < 60
    && 0 <= c.second < 60
  }

  /** Days from 0001-01-01 to the date of `c`. */
  function DayNumber(c: Civil): int
    requires ValidDate(c)
  {
    DaysBeforeYear(c.year) + DaysBeforeMonth(c.year, c.month) + c.day - 1
  }

  function SecondOfDay(c: Civil): int {
    c.hour * 3600 + c.minute * 60 + c.second
  }

  /** Seconds since the epoch of a civil time: the inverse of FromEpoch. */
  function ToEpoch(c: Civil): int
    requires Valid(c)
  {
    (DayNumber(c) - UnixEpochDay) * SecondsPerDay + SecondOfDay(c)
  }

  /** Stepping a year past a multiple of 4, 100 or 400 adds one to the count
      of those multiples. */
  lemma Step4(y: int)
    ensures y / 4 == (y - 1) / 4 + (if y % 4 == 0 then 1 else 0)
  {
  }

  lemma Step100(y: int)
    ensures y / 100 == (y - 1) / 100 + (if y % 100 == 0 then 1 else 0)
  {
  }

  lemma Step400(y: int)
    ensures y / 400 == (y - 1) / 400 + (if y % 400 == 0 then 1 else 0)
  {
  }

  /** A multiple of 400 is one of 100. */
  lemma Multiple400(y: int)
    requires y % 400 == 0
    ensures y % 100 == 0
  {
    var k := 4 * (y / 400);
    assert y == 100 * k;
  }

  /** A multiple of 100 is one of 4. */
  lemma Multiple100(y: int)
    requires y % 100 == 0
    ensures y % 4 == 0
  {
    var k := 25 * (y / 100);
    assert y == 4 * k;
  }

  lemma YearStep(y: int)
    requires 1 <= y
    ensures DaysBeforeYear(y + 1) == DaysBeforeYear(y) + DaysInYear(y)
  {
    Step4(y);
    Step100(y);
    Step400(y);
    if y % 400 == 0 {
      Multiple400(y);
    }
    if y % 100 == 0 {
      Multiple100(y);
    }
    var d4, d100, d400 := y / 4 - (y - 1) / 4, y / 100 - (y - 1) / 100, y / 400 - (y - 1) / 400;
    assert DaysBeforeYear(y + 1) - DaysBeforeYear(y) == 365 + d4 - d100 + d400;
    assert d4 - d100 + d400 == if IsLeap(y) then 1 else 0;
  }

  lemma MonthStep(y: int, m: int)
    requires 1 <= m <= 12
    ensures DaysBeforeMonth(y, m + 1) == DaysBeforeMonth(y, m) + DaysInMonth(y, m)
  {
  }

  lemma {:induction false} YearMonotone(a: int, b: int)
    requires 1 <= a <= b
    ensures DaysBeforeYear(a) + 365 * (b - a) <= DaysBeforeYear(b)
    decreases b - a
  {
    if a < b {
      YearMonotone(a, b - 1);
      YearStep(b - 1);
    }
  }

  lemma YearUpperBound(y: int)
    requires 1 <= y
    ensures DaysBeforeYear(y) <= 366 * (y - 1)
  {
    var p := y - 1;
    assert p / 4 <= p;
    assert p / 400 <= p / 100;
  }

  /** Exactly one year brackets any day number. */
  lemma YearUnique(n: int, y1: int, y2: int)
    requires 1 <= y1 && 1 <= y2
    requires DaysBeforeYear(y1) <= n < DaysBeforeYear(y1 + 1)
    requires DaysBeforeYear(y2) <= n < DaysBeforeYear(y2 + 1)
    ensures y1 == y2
  {
    if y1 < y2 {
      YearMonotone(y1 + 1, y2);
    } else if y2 < y1 {
      YearMonotone(y2 + 1, y1);
    }
  }

  /** The year, at or after `y`, that contains day number `n`. */
  function YearFrom(n: int, y: int): (r: int)
    requires 1 <= y && DaysBeforeYear(y) <= n
    ensures y <= r && DaysBeforeYear(r) <= n < DaysBeforeYear(r + 1)
    decreases n - DaysBeforeYear(y)
  {
    YearStep(y);
    if n < DaysBeforeYear(y + 1) then y else YearFrom(n, y + 1)
  }

  /** The year containing day number `n` (0 is 0001-01-01). */
  function YearOf(n: int): (r: int)
    requires 0 <= n
    ensures 1 <= r && DaysBeforeYear(r) <= n < DaysBeforeYear(r + 1)
  {
    YearUpperBound(n / 366 + 1);
    YearFrom(n, n / 366 + 1)
  }

  /** The month, at or after `m`, that contains day `dayOfYear` of year `y`. */
  function MonthFrom(y: int, dayOfYear: int, m: int): (r: int)
    requires 1 <= m <= 12 && DaysBeforeMonth(y, m) <= dayOfYear < DaysInYear(y)
    ensures m <= r <= 12 && DaysBeforeMonth(y, r) <= dayOfYear < DaysBeforeMonth(y, r + 1)
    decreases 12 - m
  {
    MonthStep(y, m);
    if m == 12 || dayOfYear < DaysBeforeMonth(y, m + 1) then m
    else MonthFrom(y, dayOfYear, m + 1)
  }

  lemma MonthUnique(y: int, dayOfYear: int, m1: int, m2: int)
    requires 1 <= m1 <= 12 && 1 <= m2 <= 12
    requires DaysBeforeMonth(y, m1) <= dayOfYear < DaysBeforeMonth(y, m1 + 1)
    requires DaysBeforeMonth(y, m2) <= dayOfYear < DaysBeforeMonth(y, m2 + 1)
    ensures m1 == m2
  {
  }

  /** The date whose day number is `n`; its time fields are zero. */
  function DateOf(n: int): (r: Civil)
    requires 0 <= n < EndOfYear9999
    ensures ValidDate(r) && DayNumber(r) == n
  {
    var y := YearOf(n);
    YearStep(y);
    YearMonotone(y + 1, 10000);
    var dayOfYear := n - DaysBeforeYear(y);
    var m := MonthFrom(y, dayOfYear, 1);
    MonthStep(y, m);
    Civil(y, m, dayOfYear - DaysBeforeMonth(y, m) + 1, 0, 0, 0)
  }

  /** A date is found again from its own day number. */
  lemma DateOfDayNumber(c: Civil)
    requires ValidDate(c)
    ensures 0 <= DayNumber(c) < EndOfYear9999
    ensures DateOf(DayNumber(c)) == c.(hour := 0, minute := 0, second := 0)
  {
    var n := DayNumber(c);
    MonthStep(c.year, c.month);
    assert DaysBeforeMonth(c.year, 13) == DaysInYear(c.year);
    YearStep(c.year);
    YearMonotone(c.year + 1, 10000);
    YearUnique(n, YearOf(n), c.year);
    var dayOfYear := n - DaysBeforeYear(c.year);
    MonthUnique(c.year, dayOfYear, MonthFrom(c.year, dayOfYear, 1), c.month);
  }

  lemma TimeOfDay(secs: int)
    requires 0 <= secs < SecondsPerDay
    ensures 0 <= secs / 3600 < 24 && 0 <= secs % 3600 / 60 < 60 && 0 <= secs % 60 < 60
    ensures (secs / 3600) * 3600 + (secs % 3600 / 60) * 60 + secs % 60 == secs
  {
  }

  lemma SplitDay(t: int, days: int, secs: int)
    requires 0 <= secs < SecondsPerDay && t == days * SecondsPerDay + secs
    ensures t / SecondsPerDay == days && t % SecondsPerDay == secs
  {
  }

  /** datetime.utcfromtimestamp(t): the civil UTC time of epoch second `t`, or
      None where Python raises because the year would leave 1..9999. */
  function FromEpoch(t: int): (r: Option<Civil>)
    ensures r.Some? <==> MinEpochSecond <= t <= MaxEpochSecond
    ensures r.Some? ==> Valid(r.value) && ToEpoch(r.value) == t
  {
    var dayNumber := t / SecondsPerDay + UnixEpochDay;
    var secs := t % SecondsPerDay;
    if dayNumber < 0 || EndOfYear9999 <= dayNumber then None
    else
      TimeOfDay(secs);
      Some(DateOf(dayNumber).(hour := secs / 3600, minute := secs % 3600 / 60, second := secs % 60))
  }

  /** FromEpoch on a second given as its day number and second of the day. */
  lemma FromEpochSplit(t: int, n: int, secs: int)
    requires 0 <= n < EndOfYear9999 && 0 <= secs < SecondsPerDay
    requires t == (n - UnixEpochDay) * SecondsPerDay + secs
    ensures FromEpoch(t) == Some(DateOf(n).(hour := secs / 3600, minute := secs % 3600 / 60, second := secs % 60))
  {
    SplitDay(t, n - UnixEpochDay, secs);
  }

  /** Every valid civil time is reached, from exactly its own epoch second. */
  lemma FromToEpoch(c: Civil)
    requires Valid(c)
    ensures FromEpoch(ToEpoch(c)) == Some(c)
  {
    var secs := SecondOfDay(c);
    TimeOfDay(secs);
    assert secs / 3600 == c.hour && secs % 3600 / 60 == c.minute && secs % 60 == c.second;
    DateOfDayNumber(c);
    FromEpochSplit(ToEpoch(c), DayNumber(c), secs);
  }

  /** strftime('%Y-%m-%d %H:%M:%S'). */
  function Format(c: Civil): (r: string)
    requires Valid(c)
    ensures |r| == 19
  {
    Digits.Pad(c.year, 4) + "-" + Digits.Pad(c.month, 2) + "-" + Digits.Pad(c.day, 2) + " "
    + Digits.Pad(c.hour, 2) + ":" + Digits.Pad(c.minute, 2) + ":" + Digits.Pad(c.second, 2)
  }

  /** Reads a 'YYYY-MM-DD HH:MM:SS' timestamp back into its fields. */
  function Parse(s: string): Option<Civil> {
    if |s| == 19 && s[4] == '-' && s[7] == '-' && s[10] == ' ' && s[13] == ':' && s[16] == ':'
       && Digits.AllDigits(s[0..4]) && Digits.AllDigits(s[5..7]) && Digits.AllDigits(s[8..10])
       && Digits.AllDigits(s[11..13]) && Digits.AllDigits(s[14..16]) && Digits.AllDigits(s[17..19])
    then
      Some(Civil(Digits.ValueOf(s[0..4]), Digits.ValueOf(s[5..7]), Digits.ValueOf(s[8..10]),
                 Digits.ValueOf(s[11..13]), Digits.ValueOf(s[14..16]), Digits.ValueOf(s[17..19])))
    else None
  }

  /** The formatted timestamp loses nothing: its fields read back unchanged. */
  lemma ParseFormat(c: Civil)
    requires Valid(c)
    ensures Parse(Format(c)) == Some(c)
  {
    var s := Format(c);
    assert s[0..4] == Digits.Pad(c.year, 4);
    assert s[5..7] == Digits.Pad(c.month, 2);
    assert s[8..10] == Digits.Pad(c.day, 2);
    assert s[11..13] == Digits.Pad(c.hour, 2);
    assert s[14..16] == Digits.Pad(c.minute, 2);
    assert s[17..19] == Digits.Pad(c.second, 2);
  }

  /** datetime.utcfromtimestamp(t).strftime('%Y-%m-%d %H:%M:%S'), None where
      utcfromtimestamp raises. */
  function UtcTimestamp(t: int): (r: Option<string>)
    ensures r.Some? <==> MinEpochSecond <= t <= MaxEpochSecond
    ensures r.Some? ==> |r.value| == 19
    ensures r.Some? ==> Parse(r.value).Some? && Valid(Parse(r.value).value)
                        && ToEpoch(Parse(r.value).value) == t
  {
    match FromEpoch(t)
    case None => None
    case Some(c) => ParseFormat(c); Some(Format(c))
  }

  /** Distinct epoch seconds never share a timestamp text, so rows keyed by the
      text are keyed by the second. */
  lemma UtcTimestampInjective(t1: int, t2: int)
    requires MinEpochSecond <= t1 <= MaxEpochSecond
    ensures UtcTimestamp(t1) == UtcTimestamp(t2) ==> t1 == t2
  {
  }

  /** C's integer division, truncating toward zero, as POSIX writes its formula. */
  function TruncDiv(a: int, b: int): int
    requires 0 < b
  {
    if a >= 0 then a / b else -((-a) / b)
  }

  /** The expression of section 4.16 of the POSIX.1-2017 Base Definitions, over
      tm_year = year - 1900 and tm_yday = days since the first of January. */
  function PosixSecondsSinceEpoch(c: Civil): int
    requires Valid(c)
  {
    var tmYear := c.year - 1900;
    var tmYday := DaysBeforeMonth(c.year, c.month) + c.day - 1;
    c.second + c.minute * 60 + c.hour * 3600 + tmYday * 86400
    + (tmYear - 70) * 31536000 + TruncDiv(tmYear - 69, 4) * 86400
    - TruncDiv(tmYear - 1, 100) * 86400 + TruncDiv(tmYear + 299, 400) * 86400
  }

  /** From 1970 on, where POSIX defines it, the conversion agrees with POSIX. */
  lemma ToEpochIsPosix(c: Civil)
    requires Valid(c) && 1970 <= c.year
    ensures ToEpoch(c) == PosixSecondsSinceEpoch(c)
  {
    var y := c.year;
    assert (y - 1) / 4 == (y - 1969) / 4 + 492;
    assert (y - 1) / 100 == (y - 1901) / 100 + 19;
    assert (y - 1) / 400 == (y - 1601) / 400 + 4;
  }
}

=== FILE: client.dfy ===
/** The gateway client (IBClient): the queue that collects historical bars until
    the end-of-data callback, the never-cleared list they are drained into, the
    forwarding of callbacks to the trader, and the connection loops. */
module Client {
  import opened Basics
  import Bars

  /** One [req_id, bar] entry of data_q. */
  datatype QueueItem = QueueItem(reqId: int, bar: Bars.RawBar)

  predicate Matches(item: QueueItem, reqId: int, bar: Bars.RawBar) {
    item.reqId == reqId && item.bar.date == bar.date
  }

  /** replace_in_queue: put [req_id, bar] in place of the first entry for the same
      request and bar date, or at the tail when there is none; report which. */
  method ReplaceInQueue(q: seq<QueueItem>, reqId: int, bar: Bars.RawBar)
    returns (items: seq<QueueItem>, replaced: bool)
    ensures replaced <==> exists i :: 0 <= i < |q| && Matches(q[i], reqId, bar)
    ensures replaced ==>
      exists f :: 0 <= f < |q| && Matches(q[f], reqId, bar)
                  && (forall j :: 0 <= j < f ==> !Matches(q[j], reqId, bar))
                  && items == q[f := QueueItem(reqId, bar)]
    ensures !replaced ==> items == q + [QueueItem(reqId, bar)]
  {
    replaced := false;
    var temp: seq<QueueItem> := [];
    var i := 0;
    ghost var f := 0;
    while i < |q|
      invariant 0 <= i <= |q| && |temp| == i
      invariant replaced <==> exists j :: 0 <= j < i && Matches(q[j], reqId, bar)
      invariant !replaced ==> temp == q[..i]
      invariant replaced ==>
        && 0 <= f < i && Matches(q[f], reqId, bar)
        && (forall j :: 0 <= j < f ==> !Matches(q[j], reqId, bar))
        && temp == q[..i][f := QueueItem(reqId, bar)]
    {
      var current := q[i];
      if !replaced && Matches(current, reqId, bar) {
        temp := temp + [QueueItem(reqId, bar)];
        replaced := true;
        f := i;
      } else {
        temp := temp + [current];
      }
      i := i + 1;
    }
    if !replaced {
      temp := temp + [QueueItem(reqId, bar)];
    }
    assert q[..|q|] == q;
    items := temp;
  }

  /** Which of the trader's callbacks the client was constructed with. */
  datatype Callbacks = Callbacks(historicalData: bool, historicalDataEnd: bool, historicalDataUpdate: bool)

  datatype ClientState = ClientState(queue: seq<QueueItem>, bars: seq<Bars.RawBar>, callbacks: Callbacks)

  /** The callback invocation a gateway event leads to, if any. */
  datatype Forward =
    | NoForward
    | ForwardBar(reqId: int, bar: Bars.RawBar)
    | ForwardEnd(reqId: int, bars: seq<Bars.RawBar>)
    | ForwardUpdate(reqId: int, bar: Bars.RawBar)

  datatype ClientStep = ClientStep(state: ClientState, forward: Forward)

  /** historicalData: enqueue [req_id, bar] at the tail, then forward the bar. */
  function HistoricalData(c: ClientState, reqId: int, bar: Bars.RawBar): (r: ClientStep)
    ensures r.state.queue == c.queue + [QueueItem(reqId, bar)]
    ensures r.state.bars == c.bars && r.state.callbacks == c.callbacks
    ensures r.forward.ForwardBar? <==> c.callbacks.historicalData
    ensures r.forward.ForwardBar? ==> r.forward == ForwardBar(reqId, bar)
  {
    var state := c.(queue := c.queue + [QueueItem(reqId, bar)]);
    ClientStep(state, if c.callbacks.historicalData then ForwardBar(reqId, bar) else NoForward)
  }

  /** `while not data_q.empty(): bars.append(data_q.get_nowait()[1])`. */
  function DrainInto(queue: seq<QueueItem>, bars: seq<Bars.RawBar>): (r: seq<Bars.RawBar>)
    ensures |r| == |bars| + |queue| && r[..|bars|] == bars
    ensures forall i :: 0 <= i < |queue| ==> r[|bars| + i] == queue[i].bar
    decreases |queue|
  {
    if queue == [] then bars
    else
      var r := DrainInto(queue[1..], bars + [queue[0].bar]);
      assert forall i :: 1 <= i < |queue| ==> queue[i] == queue[1..][i - 1];
      r
  }

  /** historicalDataEnd: drain the queue in arrival order onto the end of the
      bar list, which is never cleared, and hand the whole list to the trader. */
  function HistoricalDataEnd(c: ClientState, reqId: int): (r: ClientStep)
    ensures r.state.queue == [] && r.state.callbacks == c.callbacks
    ensures |r.state.bars| == |c.bars| + |c.queue| && r.state.bars[..|c.bars|] == c.bars
    ensures forall i :: 0 <= i < |c.queue| ==> r.state.bars[|c.bars| + i] == c.queue[i].bar
    ensures r.forward.ForwardEnd? <==> c.callbacks.historicalDataEnd
    ensures r.forward.ForwardEnd? ==> r.forward == ForwardEnd(reqId, r.state.bars)
  {
    var state := c.(queue := [], bars := DrainInto(c.queue, c.bars));
    ClientStep(state, if c.callbacks.historicalDataEnd then ForwardEnd(reqId, state.bars) else NoForward)
  }

  /** historicalDataUpdate: touch neither the queue nor the bar list; only
      forward the bar. */
  function HistoricalDataUpdate(c: ClientState, reqId: int, bar: Bars.RawBar): (r: ClientStep)
    ensures r.state == c
    ensures r.forward.ForwardUpdate? <==> c.callbacks.historicalDataUpdate
    ensures r.forward.ForwardUpdate? ==> r.forward == ForwardUpdate(reqId, bar)
  {
    ClientStep(c, if c.callbacks.historicalDataUpdate then ForwardUpdate(reqId, bar) else NoForward)
  }

  /** A second end-of-data with nothing queued in between hands the trader the
      same, already delivered, bars again. */
  lemma EndReplaysAccumulatedBars(c: ClientState, reqId: int, reqId': int)
    requires c.callbacks.historicalDataEnd
    ensures var first := HistoricalDataEnd(c, reqId);
            var second := HistoricalDataEnd(first.state, reqId');
            second.state == first.state && second.forward.bars == first.forward.bars
  {
  }

  /** `if slept > 10: raise`: the number of sleeps after which the wait gives up. */
  const SleepLimit: nat := 10

  datatype WaitOutcome = Connected(slept: nat) | TimedOut(slept: nat)

  /** wait_for_connection, with `isConnected(k)` the answer of the check made
      after k one-second sleeps. It returns at the first check that sees the
      connection and raises at the twelfth check that does not, after eleven
      sleeps. */
  method WaitForConnection(isConnected: nat -> bool) returns (r: WaitOutcome)
    ensures r.Connected? <==> exists k :: 0 <= k <= SleepLimit + 1 && isConnected(k)
    ensures r.Connected? ==> isConnected(r.slept) && forall k :: 0 <= k < r.slept ==> !isConnected(k)
    ensures r.TimedOut? ==> r.slept == SleepLimit + 1
    ensures r.slept <= SleepLimit + 1
  {
    var slept: nat := 0;
    while !isConnected(slept)
      invariant slept <= SleepLimit + 1
      invariant forall k :: 0 <= k < slept ==> !isConnected(k)
      decreases SleepLimit + 1 - slept
    {
      if slept > SleepLimit {
        return TimedOut(slept);
      }
      slept := slept + 1;
    }
    return Connected(slept);
  }

  /** @retry(tries=3): how many times make_connection is attempted. */
  const ConnectionTries: nat := 3

  datatype ConnectionOutcome =
    | AlreadyConnected(attempt: nat, connectCalls: nat)
    | Established(attempt: nat, connectCalls: nat)
    | Failed(connectCalls: nat)

  /** Attempt `a` ends in the exception: not connected at its start, and its
      wait never sees the connection. */
  predicate AttemptFails(connectedAtStart: nat -> bool, connectedAfter: (nat, nat) -> bool, a: nat) {
    !connectedAtStart(a) && forall k :: 0 <= k <= SleepLimit + 1 ==> !connectedAfter(a, k)
  }

  /** make_connection under its retry decorator. `connectedAtStart(a)` answers the
      first isConnected() of attempt a; `connectedAfter(a, k)` answers that
      attempt's wait after k sleeps. An attempt that finds the client connected
      returns without calling connect; the others connect and wait. */
  method MakeConnection(connectedAtStart: nat -> bool, connectedAfter: (nat, nat) -> bool)
    returns (r: ConnectionOutcome)
    ensures r.AlreadyConnected? ==>
      r.attempt < ConnectionTries && connectedAtStart(r.attempt) && r.connectCalls == r.attempt
    ensures r.Established? ==>
      && r.attempt < ConnectionTries && !connectedAtStart(r.attempt)
      && r.connectCalls == r.attempt + 1
      && exists k :: 0 <= k <= SleepLimit + 1 && connectedAfter(r.attempt, k)
    ensures !r.Failed? ==> forall a :: 0 <= a < r.attempt ==> AttemptFails(connectedAtStart, connectedAfter, a)
    ensures r.Failed? <==> forall a :: 0 <= a < ConnectionTries ==> AttemptFails(connectedAtStart, connectedAfter, a)
    ensures r.Failed? ==> r.connectCalls == ConnectionTries
  {
    var attempt: nat := 0;
    var connectCalls: nat := 0;
    while attempt < ConnectionTries
      invariant attempt <= ConnectionTries && connectCalls == attempt
      invariant forall a :: 0 <= a < attempt ==> AttemptFails(connectedAtStart, connectedAfter, a)
    {
      if connectedAtStart(attempt) {
        assert !AttemptFails(connectedAtStart, connectedAfter, attempt);
        return AlreadyConnected(attempt, connectCalls);
      }
      connectCalls := connectCalls + 1;
      var a := attempt;
      var answers := (k: nat) => connectedAfter(a, k);
      var waited := WaitForConnection(answers);
      if waited.Connected? {
        assert connectedAfter(a, waited.slept);
        assert !AttemptFails(connectedAtStart, connectedAfter, a);
        return Established(attempt, connectCalls);
      }
      forall k: nat | k <= SleepLimit + 1
        ensures !connectedAfter(a, k)
      {
        assert !answers(k);
      }
      assert AttemptFails(connectedAtStart, connectedAfter, a);
      attempt := attempt + 1;
    }
    return Failed(connectCalls);
  }
}

=== FILE: contracts.dfy ===
/** The instrument catalogue (MyContracts): each constructor fills a fresh
    ibapi Contract, whose unset text fields are empty, with fixed values. */
module Contracts {

  /** The fields of an ibapi Contract the catalogue sets. */
  datatype Contract = Contract(
    symbol: string, secType: string, currency: string,
    exchange: string, primaryExchange: string)

  /** A Contract() before any field is assigned. */
  const Blank: Contract := Contract("", "", "", "", "")

  function USStock(symbol: string := "SPY"): (c: Contract)
    ensures c.symbol == symbol && c.secType == "STK" && c.currency == "USD"
    ensures c.exchange == "ARCA" && c.primaryExchange == Blank.primaryExchange
  {
    Blank.(symbol := symbol, secType := "STK", currency := "USD", exchange := "ARCA")
  }

  function EthUsdCrypto(): (c: Contract)
    ensures c == Contract("ETH", "CRYPTO", "USD", "PAXOS", "")
  {
    Blank.(symbol := "ETH", secType := "CRYPTO", exchange := "PAXOS", currency := "USD")
  }

  function USStockWithPrimaryExch(symbol: string := "SPY", primaryExchange: string := "ARCA"): (c: Contract)
    ensures c.symbol == symbol && c.secType == "STK" && c.currency == "USD"
    ensures c.exchange == "SMART" && c.primaryExchange == primaryExchange
  {
    Blank.(symbol := symbol, secType := "STK", currency := "USD", exchange := "SMART",
           primaryExchange := primaryExchange)
  }

  function USStockAtSmart(symbol: string := "IBM"): (c: Contract)
    ensures c.symbol == symbol && c.secType == "STK" && c.currency == "USD"
    ensures c.exchange == "SMART" && c.primaryExchange == ""
  {
    Blank.(symbol := symbol, secType := "STK", currency := "USD", exchange := "SMART")
  }

  function Etf(symbol: string := "QQQ"): (c: Contract)
    ensures c.symbol == symbol && c.secType == "STK" && c.currency == "USD"
    ensures c.exchange == "SMART" && c.primaryExchange == ""
  {
    Blank.(symbol := symbol, secType := "STK", currency := "USD", exchange := "SMART")
  }

  function EurGbpFx(): (c: Contract)
    ensures c == Contract("EUR", "CASH", "GBP", "IDEALPRO", "")
  {
    Blank.(symbol := "EUR", secType := "CASH", currency := "GBP", exchange := "IDEALPRO")
  }

  /** The equity at SMART and the ETF are one constructor under two names: for
      any symbol they agree, and only their default symbols differ. */
  lemma AtSmartIsEtf(symbol: string)
    ensures USStockAtSmart(symbol) == Etf(symbol)
    ensures USStockAtSmart() != Etf()
    ensures USStockAtSmart() == USStockWithPrimaryExch("IBM", "")
  {
  }

  /** Whatever symbols the equity constructors are given, the FX pair is the
      only instrument of the catalogue quoted in something other than USD. */
  lemma OnlyFxIsNotUsd(s1: string, s2: string, s3: string, p: string, s4: string)
    ensures var all := [USStock(s1), EthUsdCrypto(), USStockWithPrimaryExch(s2, p),
                        USStockAtSmart(s3), Etf(s4), EurGbpFx()];
            forall c :: c in all && c.currency != "USD" ==> c == EurGbpFx()
  {
  }
}

=== FILE: digits.dfy ===
/** Base-ten digit strings: zero-padded rendering (strftime's %Y, %m, %d, ...),
    plain rendering, and parsing of the integer literals Python's int() accepts
    from the gateway. */
module Digits {
  import opened Basics

  predicate IsDigit(c: char) {
    '0' <= c <= '9'
  }

  predicate AllDigits(s: string) {
    forall i :: 0 <= i < |s| ==> IsDigit(s[i])
  }

  function DigitValue(c: char): nat
    requires IsDigit(c)
  {
    c as int - '0' as int
  }

  function DigitChar(d: nat): (c: char)
    requires d < 10
    ensures IsDigit(c) && DigitValue(c) == d
  {
    ('0' as int + d) as char
  }

  function Pow10(k: nat): nat {
    if k == 0 then 1 else 10 * Pow10(k - 1)
  }

  /** The number a digit string denotes, most significant digit first. */
  function ValueOf(s: string): nat
    requires AllDigits(s)
  {
    if s == [] then 0 else ValueOf(s[..|s| - 1]) * 10 + DigitValue(s[|s| - 1])
  }

  /** The last `width` decimal digits of `n`, zero-padded on the left. */
  function Pad(n: nat, width: nat): (r: string)
    ensures |r| == width && AllDigits(r)
    ensures n < Pow10(width) ==> ValueOf(r) == n
  {
    if width == 0 then []
    else
      var front := Pad(n / 10, width - 1);
      var r := front + [DigitChar(n % 10)];
      assert r[..|r| - 1] == front;
      r
  }

  /** The shortest decimal rendering of `n`. */
  function Show(n: nat): (r: string)
    ensures 1 <= |r| && AllDigits(r) && ValueOf(r) == n
  {
    if n < 10 then
      var r := [DigitChar(n)];
      assert r[..0] == [];
      r
    else
      var front := Show(n / 10);
      var r := front + [DigitChar(n % 10)];
      assert r[..|r| - 1] == front;
      r
  }

  /** Python's int(s) on the literals it is modelled for: an optional sign
      followed by at least one ASCII digit. Anything else raises ValueError. */
  function ParseInt(s: string): (r: Option<int>)
    ensures r.Some? <==>
      (|s| > 0 && (s[0] == '-' || s[0] == '+') && 1 < |s| && AllDigits(s[1..]))
      || (|s| > 0 && AllDigits(s))
  {
    if |s| > 0 && (s[0] == '-' || s[0] == '+') then
      if 1 < |s| && AllDigits(s[1..]) then
        var magnitude: int := ValueOf(s[1..]);
        Some(if s[0] == '-' then -magnitude else magnitude)
      else None
    else if |s| > 0 && AllDigits(s) then Some(ValueOf(s))
    else None
  }

  /** The rendering of an integer the gateway sends as bar date text. */
  function ShowInt(n: int): string {
    if n < 0 then "-" + Show(-n) else Show(n)
  }

  /** Parsing undoes rendering: every integer survives the text round trip. */
  lemma ParseShowInt(n: int)
    ensures ParseInt(ShowInt(n)) == Some(n)
  {
    if n < 0 {
      var s := ShowInt(n);
      assert s[1..] == Show(-n);
    } else {
      assert ShowInt(n)[0] != '-' && ShowInt(n)[0] != '+';
    }
  }
}

=== FILE: series.dfy ===
/** The trader's price table (hist_df): rows indexed by (symbol, date), kept in
    arrival order. A live update overwrites the rows with its key or appends one
    row at the end; a historical batch is appended as it is, duplicates and all.
    The table is never sorted. */
module Series {
  import opened Basics
  import Bars

  datatype Key = Key(symbol: string, date: string)

  datatype Row = Row(key: Key, bar: Bars.BarRecord)

  type Table = seq<Row>

  predicate HasKey(t: Table, k: Key) {
    exists i :: 0 <= i < |t| && t[i].key == k
  }

  predicate UniqueKeys(t: Table) {
    forall i, j :: 0 <= i < j < |t| ==> t[i].key != t[j].key
  }

  /** A map view of the table: the values of the first row keyed `k`. The
      trader never reads its table by key; this view is how the properties
      below state what an update means. It agrees with pandas' `.loc[k]` only
      under UniqueKeys, since `.loc` on a repeated key yields every such row. */
  function Lookup(t: Table, k: Key): (r: Option<Bars.BarRecord>)
    ensures r.None? <==> !HasKey(t, k)
  {
    if t == [] then None
    else if t[0].key == k then Some(t[0].bar)
    else
      var rest := Lookup(t[1..], k);
      assert HasKey(t[1..], k) ==> HasKey(t, k) by {
        if HasKey(t[1..], k) {
          var i :| 0 <= i < |t[1..]| && t[1..][i].key == k;
          assert t[i + 1].key == k;
        }
      }
      assert HasKey(t, k) ==> HasKey(t[1..], k) by {
        if HasKey(t, k) {
          var i :| 0 <= i < |t| && t[i].key == k;
          assert t[1..][i - 1].key == k;
        }
      }
      rest
  }

  /** DataFrame.update with a one-row frame: every row indexed by `row.key`
      takes the new values; nothing moves and nothing is added. */
  function Overwrite(t: Table, row: Row): (r: Table)
    ensures |r| == |t|
    ensures forall i :: 0 <= i < |t| && t[i].key != row.key ==> r[i] == t[i]
    ensures forall i :: 0 <= i < |t| && t[i].key == row.key ==> r[i] == row
  {
    if t == [] then []
    else
      var first := if t[0].key == row.key then row else t[0];
      var rest := Overwrite(t[1..], row);
      assert forall i :: 1 <= i < |t| ==> t[i] == t[1..][i - 1];
      [first] + rest
  }

  /** historical_data_update_event's table step: update the rows with the new
      bar's key, then append the bar if its key was not in the table. */
  function Upsert(t: Table, row: Row): (r: Table)
    ensures HasKey(t, row.key) ==> |r| == |t|
    ensures !HasKey(t, row.key) ==> |r| == |t| + 1 && r[|t|] == row
    ensures forall i :: 0 <= i < |t| && t[i].key != row.key ==> r[i] == t[i]
    ensures forall i :: 0 <= i < |t| && t[i].key == row.key ==> r[i] == row
    ensures HasKey(r, row.key)
  {
    var updated := Overwrite(t, row);
    if HasKey(updated, row.key) then updated else updated + [row]
  }

  /** With unique keys, an update whose key is present changes exactly one row. */
  lemma UpsertPresentChangesOneRow(t: Table, row: Row, i: int)
    requires UniqueKeys(t) && 0 <= i < |t| && t[i].key == row.key
    ensures Upsert(t, row) == t[i := row]
  {
  }

  /** Key uniqueness survives every update. */
  lemma UpsertKeepsUnique(t: Table, row: Row)
    requires UniqueKeys(t)
    ensures UniqueKeys(Upsert(t, row))
  {
    var r := Upsert(t, row);
    forall i, j | 0 <= i < j < |r|
      ensures r[i].key != r[j].key
    {
      if j == |t| {
        assert !HasKey(t, row.key);
        assert t[i].key != row.key;
      }
    }
  }

  /** Read through the key, the table behaves as a map under updates: the
      updated key reads the new values, every other key reads what it did. */
  lemma {:induction false} UpsertLookup(t: Table, row: Row, k: Key)
    ensures Lookup(Upsert(t, row), k) == if k == row.key then Some(row.bar) else Lookup(t, k)
  {
    var r := Upsert(t, row);
    if k == row.key {
      LookupFindsFirst(r, k);
    } else {
      LookupAgreesOnKey(t, r, k);
    }
  }

  lemma {:induction false} LookupFindsFirst(t: Table, k: Key)
    requires HasKey(t, k)
    ensures exists i :: 0 <= i < |t| && t[i].key == k && Lookup(t, k) == Some(t[i].bar)
                        && forall j :: 0 <= j < i ==> t[j].key != k
  {
    if t[0].key != k {
      var i :| 0 <= i < |t| && t[i].key == k;
      assert t[1..][i - 1].key == k;
      LookupFindsFirst(t[1..], k);
      var i' :| 0 <= i' < |t[1..]| && t[1..][i'].key == k && Lookup(t[1..], k) == Some(t[1..][i'].bar)
                && forall j :: 0 <= j < i' ==> t[1..][j].key != k;
      assert forall j :: 1 <= j < i' + 1 ==> t[j] == t[1..][j - 1];
    }
  }

  /** Two tables that agree on the rows with key `k` and on the positions of
      those rows (the longer one having no extra such row) read the same at `k`. */
  lemma {:induction false} LookupAgreesOnKey(t: Table, r: Table, k: Key)
    requires |t| <= |r|
    requires forall i :: 0 <= i < |t| && (t[i].key == k || r[i].key == k) ==> r[i] == t[i]
    requires forall i :: |t| <= i < |r| ==> r[i].key != k
    ensures Lookup(r, k) == Lookup(t, k)
  {
    if t == [] {
      assert !HasKey(r, k);
    } else if t[0].key != k {
      assert r[0].key != k;
      assert forall i :: 1 <= i < |t| ==> t[1..][i - 1] == t[i] && r[1..][i - 1] == r[i];
      assert forall i :: |t| <= i < |r| ==> r[1..][i - 1] == r[i];
      LookupAgreesOnKey(t[1..], r[1..], k);
    }
  }

  /** Last write wins: of two updates to one key, only the later is visible, and
      repeating an update changes nothing. */
  lemma UpsertLastWriteWins(t: Table, a: Row, b: Row)
    requires a.key == b.key
    ensures Upsert(Upsert(t, a), b) == Upsert(t, b)
  {
    var ta := Upsert(t, a);
    assert HasKey(ta, b.key);
  }

  /** The rows a historical batch adds: each converted bar tagged with the
      request's symbol, in delivery order. */
  function BatchRows(symbol: string, bars: seq<Bars.BarDict>): (rows: seq<Row>)
    ensures |rows| == |bars|
    ensures forall i :: 0 <= i < |bars| ==>
      rows[i].key == Key(symbol, bars[i].date) && rows[i].bar == bars[i].record
  {
    seq(|bars|, i requires 0 <= i < |bars| => Row(Key(symbol, bars[i].date), bars[i].record))
  }

  /** pd.concat([hist_df, batch]): the batch goes after the existing rows with
      no deduplication. */
  function AppendBatch(t: Table, symbol: string, bars: seq<Bars.BarDict>): (r: Table)
    ensures |r| == |t| + |bars|
    ensures r[..|t|] == t
    ensures forall i :: 0 <= i < |bars| ==>
      r[|t| + i] == Row(Key(symbol, bars[i].date), bars[i].record)
  {
    t + BatchRows(symbol, bars)
  }

  /** Appending is not idempotent: a replayed non-empty batch grows the table
      again and leaves every key of the batch in it twice. */
  lemma AppendBatchTwiceDuplicates(t: Table, symbol: string, bars: seq<Bars.BarDict>)
    requires |bars| > 0
    ensures var once := AppendBatch(t, symbol, bars);
            var twice := AppendBatch(once, symbol, bars);
            |twice| == |once| + |bars| && twice != once && !UniqueKeys(twice)
  {
    var once := AppendBatch(t, symbol, bars);
    var twice := AppendBatch(once, symbol, bars);
    assert twice[|t|].key == twice[|once|].key;
  }

  /** The table's close column, top to bottom. */
  function Closes(t: Table): (c: seq<real>)
    ensures |c| == |t| && forall i :: 0 <= i < |t| ==> c[i] == t[i].bar.close
  {
    seq(|t|, i requires 0 <= i < |t| => t[i].bar.close)
  }
}

=== FILE: session.dfy ===
/** A trader together with the client it constructed: gateway callbacks go
    through the client's queue and bar list and on into the trader's handlers. */
module Session {
  import opened Basics
  import Bars
  import Series
  import Client
  import Trader
  import Contracts

  datatype Session = Session(client: Client.ClientState, trader: Trader.TraderState)

  datatype SessionStep = SessionStep(session: Session, effect: Trader.Effect)

  /** Trader.__init__: the client gets every callback, an empty queue and an
      empty bar list. */
  function NewSession(contract: Contracts.Contract, warmupPeriod: int := 30): (s: Session)
    ensures s.client.queue == [] && s.client.bars == []
    ensures s.client.callbacks == Client.Callbacks(true, true, true)
    ensures s.trader == Trader.NewTrader(contract, warmupPeriod)
  {
    Session(Client.ClientState([], [], Client.Callbacks(true, true, true)), Trader.NewTrader(contract, warmupPeriod))
  }

  /** Hands a forwarded callback to the trader's handler for it. */
  function Deliver(c: Client.ClientState, t: Trader.TraderState, forward: Client.Forward): SessionStep {
    match forward
    case NoForward => SessionStep(Session(c, t), Trader.StrategyNotRun)
    case ForwardBar(reqId, bar) =>
      var r := Trader.HistoricalDataEvent(t, reqId, bar);
      SessionStep(Session(c, r.trader), r.effect)
    case ForwardEnd(reqId, bars) =>
      var r := Trader.HistoricalDataEndEvent(t, reqId, bars);
      SessionStep(Session(c, r.trader), r.effect)
    case ForwardUpdate(reqId, bar) =>
      var r := Trader.HistoricalDataUpdateEvent(t, reqId, bar);
      SessionStep(Session(c, r.trader), r.effect)
  }

  /** A historical bar: queued by the client, only logged by the trader. */
  function OnHistoricalData(s: Session, reqId: int, bar: Bars.RawBar): (r: SessionStep)
    ensures r.session.client.queue == s.client.queue + [Client.QueueItem(reqId, bar)]
    ensures r.session.client.bars == s.client.bars && r.session.trader == s.trader
  {
    var step := Client.HistoricalData(s.client, reqId, bar);
    Deliver(step.state, s.trader, step.forward)
  }

  /** End of historical data: the client drains its queue onto its bar list and
      the trader appends that whole list, earlier deliveries included. */
  function OnHistoricalDataEnd(s: Session, reqId: int): (r: SessionStep)
    ensures r.session.client.queue == []
    ensures s.client.callbacks.historicalDataEnd ==>
      r == (var c := Client.HistoricalDataEnd(s.client, reqId).state;
            var reaction := Trader.HistoricalDataEndEvent(s.trader, reqId, c.bars);
            SessionStep(Session(c, reaction.trader), reaction.effect))
  {
    var step := Client.HistoricalDataEnd(s.client, reqId);
    Deliver(step.state, s.trader, step.forward)
  }

  /** A keep-up-to-date bar: the client's queue and list stay as they are and
      the trader upserts the bar. */
  function OnHistoricalDataUpdate(s: Session, reqId: int, bar: Bars.RawBar): (r: SessionStep)
    ensures r.session.client == s.client
    ensures s.client.callbacks.historicalDataUpdate ==>
      r.session.trader == Trader.HistoricalDataUpdateEvent(s.trader, reqId, bar).trader
  {
    var step := Client.HistoricalDataUpdate(s.client, reqId, bar);
    Deliver(step.state, s.trader, step.forward)
  }

  /** Because the client never clears its bar list and the trader never
      deduplicates a batch, a second end-of-data grows the table by every bar
      ever delivered, repeating keys it already holds. */
  lemma SecondEndDuplicatesRows(s: Session, reqId: int)
    requires s.client.callbacks.historicalDataEnd
    ensures var first := OnHistoricalDataEnd(s, reqId);
            first.effect == Trader.StrategyNotRun ==>
            var second := OnHistoricalDataEnd(first.session, reqId);
            && second.effect == Trader.StrategyNotRun
            && |second.session.trader.table| == |first.session.trader.table| + |first.session.client.bars|
            && !Series.UniqueKeys(second.session.trader.table)
  {
    var first := OnHistoricalDataEnd(s, reqId);
    if first.effect != Trader.StrategyNotRun {
      return;
    }
    var bars := first.session.client.bars;
    var t1 := first.session.trader;
    assert t1.requests == s.trader.requests;
    var dicts := Bars.ConvertBars(bars).value;
    var symbol := s.trader.requests[reqId].contract.symbol;
    assert t1.table == Series.AppendBatch(s.trader.table, symbol, dicts);
    Series.AppendBatchTwiceDuplicates(s.trader.table, symbol, dicts);
  }
}

=== FILE: strategy.dfy ===
/** The moving-average crossover strategy (SimpleStrategy) and the do-nothing
    base Strategy it overrides. Prices are exact reals; pandas' NaN for a mean
    with too few values is None. */
module Strategy {
  import opened Basics

  const ShortWindow: nat := 10
  const LongWindow: nat := 30

  /** The trader action one run ends in: buy(), sell() or do_nothing(). */
  datatype Signal = Buy | Sell | Hold

  /** The strategy a trader can be given: the base class, whose run does
      nothing, or the crossover strategy. A strategy is named by its class
      alone and is taken to be built on the trader that holds it, so a run
      reads that trader's own table; one built on a different trader would
      read that other trader's table instead. */
  datatype StrategyKind = BaseStrategy | SimpleStrategy

  function Sum(s: seq<real>): real {
    if s == [] then 0.0 else Sum(s[..|s| - 1]) + s[|s| - 1]
  }

  function Mean(s: seq<real>): real
    requires |s| > 0
  {
    Sum(s) / (|s| as real)
  }

  lemma SumSnoc(s: seq<real>, lo: int, hi: int)
    requires 0 <= lo <= hi < |s|
    ensures Sum(s[lo..hi + 1]) == Sum(s[lo..hi]) + s[hi]
  {
    assert s[lo..hi + 1][..hi - lo] == s[lo..hi];
  }

  lemma {:induction false} SumCons(s: seq<real>)
    requires |s| > 0
    ensures Sum(s) == s[0] + Sum(s[1..])
    decreases |s|
  {
    if |s| > 1 {
      SumCons(s[..|s| - 1]);
      assert s[..|s| - 1][1..] == s[1..][..|s| - 2];
    }
  }

  lemma SumDropFront(s: seq<real>, lo: int, hi: int)
    requires 0 <= lo < hi <= |s|
    ensures Sum(s[lo..hi]) == s[lo] + Sum(s[lo + 1..hi])
  {
    SumCons(s[lo..hi]);
    assert s[lo..hi][1..] == s[lo + 1..hi];
  }

  /** Python's s[start:stop] with step 1: negative bounds count from the end,
      out-of-range bounds are clipped, and crossed bounds give nothing. */
  function PySlice<T>(s: seq<T>, start: int, stop: int): seq<T> {
    var n := |s|;
    var lo := if start < 0 then (if start + n < 0 then 0 else start + n) else (if start < n then start else n);
    var hi := if stop < 0 then (if stop + n < 0 then 0 else stop + n) else (if stop < n then stop else n);
    if lo < hi then s[lo..hi] else []
  }

  /** hist_df['close'].iloc[-(2 * long_window):-1]: the last 60 closes at most,
      always without the newest row, which may still be forming. */
  function Window(closes: seq<real>): (w: seq<real>)
    ensures var n := |closes|;
            var start := if n >= 2 * LongWindow then n - 2 * LongWindow else 0;
            && |w| == (if n == 0 then 0 else if n <= 2 * LongWindow then n - 1 else 2 * LongWindow - 1)
            && forall i :: 0 <= i < |w| ==> w[i] == closes[start + i]
    ensures 2 <= |closes| ==> w[|w| - 1] == closes[|closes| - 2]
  {
    PySlice(closes, -(2 * LongWindow), -1)
  }

  /** data.rolling(window=w).mean() at position i: the mean of the w values
      ending at i, undefined while fewer than w values are available. */
  function RollingMean(data: seq<real>, w: nat, i: int): (r: Option<real>)
    requires 0 < w && 0 <= i < |data|
    ensures r.Some? <==> w - 1 <= i
  {
    if i + 1 < w then None else Some(Mean(data[i + 1 - w..i + 1]))
  }

  /** calculate_moving_average: the whole rolling-mean series. */
  function RollingMeans(data: seq<real>, w: nat): (m: seq<Option<real>>)
    requires 0 < w
    ensures |m| == |data| && forall i :: 0 <= i < |data| ==> m[i] == RollingMean(data, w, i)
  {
    seq(|data|, i requires 0 <= i < |data| => RollingMean(data, w, i))
  }

  /** The start of the running window before position i is added. */
  function WindowStart(i: nat, w: nat): nat {
    if i < w then 0 else i - w
  }

  /** One step of the sliding window: add data[i], drop data[i - w] once the
      window is full, and the running sum is the sum of the window ending at i. */
  lemma SlideStep(data: seq<real>, w: nat, i: nat, sum: real)
    requires 0 < w && i < |data|
    requires sum == Sum(data[WindowStart(i, w)..i])
    ensures var next := if i >= w then sum + data[i] - data[i - w] else sum + data[i];
            && next == Sum(data[WindowStart(i + 1, w)..i + 1])
            && (w <= i + 1 ==> RollingMean(data, w, i) == Some(next / (w as real)))
  {
    SumSnoc(data, WindowStart(i, w), i);
    if i >= w {
      SumDropFront(data, i - w, i + 1);
    }
  }

  /** The rolling means as a one-pass sliding window computes them: a running
      sum that gains the newest value and, once full, loses the oldest. */
  method SlidingMeans(data: seq<real>, w: nat) returns (m: seq<Option<real>>)
    requires 0 < w
    ensures |m| == |data|
    ensures forall i :: 0 <= i < |data| ==> m[i] == RollingMean(data, w, i)
  {
    m := [];
    var sum := 0.0;
    var i := 0;
    while i < |data|
      invariant 0 <= i <= |data|
      invariant |m| == i
      invariant forall j :: 0 <= j < i ==> m[j] == RollingMean(data, w, j)
      invariant sum == Sum(data[WindowStart(i, w)..i])
    {
      SlideStep(data, w, i, sum);
      var next := if i >= w then sum + data[i] - data[i - w] else sum + data[i];
      var mean := if i + 1 < w then None else Some(next / (w as real));
      assert mean == RollingMean(data, w, i);
      m := m + [mean];
      sum := next;
      i := i + 1;
    }
  }

  /** short_mavg - long_mavg at one position; NaN if either mean is. */
  function Delta(short: Option<real>, long: Option<real>): (d: Option<real>)
    ensures d.Some? <==> short.Some? && long.Some?
    ensures d.Some? ==> (d.value > 0.0 <==> short.value > long.value)
                        && (d.value < 0.0 <==> short.value < long.value)
  {
    if short.Some? && long.Some? then Some(short.value - long.value) else None
  }

  /** The np.where cascade: up-crossing buys, down-crossing sells, anything
      else, a NaN or a zero delta included, does nothing. */
  function Decide(current: Option<real>, previous: Option<real>): (s: Signal)
    ensures (current.None? || previous.None? || current == Some(0.0) || previous == Some(0.0)) ==> s == Hold
    ensures s == Buy <==> current.Some? && previous.Some? && current.value > 0.0 && previous.value < 0.0
    ensures s == Sell <==> current.Some? && previous.Some? && current.value < 0.0 && previous.value > 0.0
  {
    var up := current.Some? && previous.Some? && current.value > 0.0 && previous.value < 0.0;
    var down := current.Some? && previous.Some? && current.value < 0.0 && previous.value > 0.0;
    if up then Buy else if down then Sell else Hold
  }

  /** SimpleStrategy.run: means over the window, deltas at its last two
      positions, and the decision; IndexError when the window has fewer than two
      values. */
  function Run(closes: seq<real>): (r: Result<Signal>)
    ensures r.Err? <==> |Window(closes)| < 2
    ensures r.Err? ==> r.error == WindowTooShort
  {
    var data := Window(closes);
    if |data| < 2 then Err(WindowTooShort)
    else
      var short := RollingMeans(data, ShortWindow);
      var long := RollingMeans(data, LongWindow);
      var n := |data|;
      Ok(Decide(Delta(short[n - 1], long[n - 1]), Delta(short[n - 2], long[n - 2])))
  }

  /** Buy exactly when the short mean has just crossed above the long one: over
      the window, the last 10 values average above the last 30, and one step
      earlier they averaged below. */
  lemma RunBuysOnUpCrossing(closes: seq<real>)
    ensures Run(closes) == Ok(Buy) <==>
      var d := Window(closes);
      var n := |d|;
      && LongWindow + 1 <= n
      && Mean(d[n - ShortWindow..n]) > Mean(d[n - LongWindow..n])
      && Mean(d[n - 1 - ShortWindow..n - 1]) < Mean(d[n - 1 - LongWindow..n - 1])
  {
  }

  /** Sell exactly on the opposite crossing. */
  lemma RunSellsOnDownCrossing(closes: seq<real>)
    ensures Run(closes) == Ok(Sell) <==>
      var d := Window(closes);
      var n := |d|;
      && LongWindow + 1 <= n
      && Mean(d[n - ShortWindow..n]) < Mean(d[n - LongWindow..n])
      && Mean(d[n - 1 - ShortWindow..n - 1]) > Mean(d[n - 1 - LongWindow..n - 1])
  {
  }

  /** Past the trader's default warm-up (more than 31 rows), the window holds at
      least 31 values, so both long means the deltas need exist and the run
      reaches a decision. */
  lemma WarmedUpRunDecides(closes: seq<real>)
    requires |closes| - 1 > 30
    ensures var d := Window(closes);
            && LongWindow + 1 <= |d|
            && RollingMean(d, LongWindow, |d| - 1).Some?
            && RollingMean(d, LongWindow, |d| - 2).Some?
            && Run(closes).Ok?
  {
    var d := Window(closes);
    // The window keeps min(|closes| - 1, 2 * LongWindow - 1) closes.
    assert LongWindow + 1 <= |d| by {
      assert |closes| >= LongWindow + 2;
    }
    // Both of the last two positions end a full long window.
    assert RollingMean(d, LongWindow, |d| - 1).Some? && RollingMean(d, LongWindow, |d| - 2).Some? by {
      assert LongWindow - 1 <= |d| - 2;
    }
    // Run fails only on a window shorter than two.
    assert Run(closes).Ok? by {
      assert 2 <= |d|;
    }
  }

  /** Strategy.run dispatched on the strategy's class: the base class decides
      nothing, the crossover strategy decides as Run does. */
  function RunStrategy(kind: StrategyKind, closes: seq<real>): (r: Result<Option<Signal>>)
    ensures kind == BaseStrategy ==> r == Ok(None)
    ensures kind == SimpleStrategy ==>
      (r.Ok? <==> Run(closes).Ok?) && (r.Ok? ==> r.value == Some(Run(closes).value))
  {
    match kind
    case BaseStrategy => Ok(None)
    case SimpleStrategy =>
      match Run(closes)
      case Ok(s) => Ok(Some(s))
      case Err(e) => Err(e)
  }
}

=== FILE: trader.dfy ===
/** The trader (Trader): which gateway port it uses, the request ids it sends,
    the historical request it records, and how the end-of-data and update
    callbacks change its price table and when they run the strategy. */
module Trader {
  import opened Basics
  import Bars
  import Series
  import Strategy
  import Contracts

  datatype Platform = TWS | IB

  /** The four gateway ports read from the environment at start-up. */
  datatype Config = Config(twsLivePort: int, twsPaperPort: int, ibgwLivePort: int, ibgwPaperPort: int)

  /** port_map, keyed by (is_paper, platform). */
  function PortMap(cfg: Config): map<(bool, Platform), int> {
    map[(true, TWS) := cfg.twsPaperPort, (true, IB) := cfg.ibgwPaperPort,
        (false, TWS) := cfg.twsLivePort, (false, IB) := cfg.ibgwLivePort]
  }

  /** Trader.port: the lookup never misses, and it picks the paper or live port
      of the chosen gateway. */
  function Port(cfg: Config, isPaper: bool, platform: Platform): (p: int)
    ensures (isPaper, platform) in PortMap(cfg)
    ensures isPaper && platform == TWS ==> p == cfg.twsPaperPort
    ensures isPaper && platform == IB ==> p == cfg.ibgwPaperPort
    ensures !isPaper && platform == TWS ==> p == cfg.twsLivePort
    ensures !isPaper && platform == IB ==> p == cfg.ibgwLivePort
  {
    var key := (isPaper, platform);
    assert key in PortMap(cfg) by {
      if isPaper {
        if platform == TWS { assert key == (true, TWS); } else { assert key == (true, IB); }
      } else {
        if platform == TWS { assert key == (false, TWS); } else { assert key == (false, IB); }
      }
    }
    PortMap(cfg)[key]
  }

  /** With four distinct ports configured, each (paper, platform) choice
      reaches its own gateway. */
  lemma PortInjective(cfg: Config, paper1: bool, platform1: Platform, paper2: bool, platform2: Platform)
    requires |{cfg.twsLivePort, cfg.twsPaperPort, cfg.ibgwLivePort, cfg.ibgwPaperPort}| == 4
    requires Port(cfg, paper1, platform1) == Port(cfg, paper2, platform2)
    ensures paper1 == paper2 && platform1 == platform2
  {
  }

  /** A gen_req_id() generator, by the id it yields next. */
  datatype ReqIdGen = ReqIdGen(next: int)

  /** A generator as gen_req_id() creates it. */
  const FreshReqIdGen: ReqIdGen := ReqIdGen(1)

  /** The ids the first `k` calls of next() on `g` yield. */
  function Yields(g: ReqIdGen, k: nat): (ids: seq<int>)
    ensures |ids| == k
    ensures forall i :: 0 <= i < k ==> ids[i] == g.next + i
    decreases k
  {
    if k == 0 then [] else [g.next] + Yields(ReqIdGen(g.next + 1), k - 1)
  }

  /** A fresh generator counts 1, 2, 3, ... without repeats. */
  lemma FreshIdsCountFromOne(k: nat)
    ensures forall i :: 0 <= i < k ==> Yields(FreshReqIdGen, k)[i] == i + 1
    ensures forall i, j :: 0 <= i < j < k ==> Yields(FreshReqIdGen, k)[i] < Yields(FreshReqIdGen, k)[j]
  {
  }

  /** The ids stop_realtime_data and stop_historical_data cancel. */
  const RealtimeCancelId: int := 1
  const HistoricalCancelId: int := 1

  /** `next(gen_req_id())`: each request builds a new generator and takes its
      first id, so every request goes out as the id the cancels use. */
  function RequestId(): (id: int)
    ensures id == RealtimeCancelId && id == HistoricalCancelId
  {
    Yields(FreshReqIdGen, 1)[0]
  }

  /** The keyword arguments get_historical_data passes to reqHistoricalData. */
  datatype HistoricalRequest = HistoricalRequest(
    reqId: int, contract: Contracts.Contract, endDateTime: string, durationStr: string,
    barSizeSetting: string, whatToShow: string, useRTH: int, formatDate: int,
    keepUpToDate: bool, chartOptions: seq<string>)

  datatype TraderState = TraderState(
    contract: Contracts.Contract,
    table: Series.Table,
    requests: map<int, HistoricalRequest>,
    warmupPeriod: int,
    strategy: Option<Strategy.StrategyKind>)

  /** Trader(...): an empty table, no requests, no strategy yet. */
  function NewTrader(contract: Contracts.Contract, warmupPeriod: int := 30): (t: TraderState)
    ensures t.table == [] && t.requests == map[] && t.strategy.None?
    ensures t.contract == contract && t.warmupPeriod == warmupPeriod
  {
    TraderState(contract, [], map[], warmupPeriod, None)
  }

  /** set_strategy: the trader now runs `kind`; its table, requests, contract
      and warm-up period are as they were. */
  function SetStrategy(t: TraderState, kind: Strategy.StrategyKind): (r: TraderState)
    ensures r.strategy == Some(kind)
    ensures r.table == t.table && r.requests == t.requests
    ensures r.contract == t.contract && r.warmupPeriod == t.warmupPeriod
  {
    t.(strategy := Some(kind))
  }

  /** One historical request as get_historical_data builds it: one trading
      day of five-minute trade bars, epoch-second dates, kept up to date. */
  function HistoricalRequestFor(contract: Contracts.Contract): (q: HistoricalRequest)
    ensures q.reqId == HistoricalCancelId && q.contract == contract
    ensures q.formatDate == 2 && q.keepUpToDate
  {
    HistoricalRequest(RequestId(), contract, "", "1 D", "5 mins", "TRADES", 1, 2, true, [])
  }

  /** @retry(tries=3): how many times get_historical_data is attempted. */
  const HistoricalTries: nat := 3

  function HistoricalAttempt(t: TraderState, connected: nat -> bool, attempt: nat): (r: Result<TraderState>)
    ensures r.Ok? <==> exists a :: attempt <= a < HistoricalTries && connected(a)
    ensures r.Err? ==> r.error == NotConnected
    ensures r.Ok? ==> r.value == t.(requests := t.requests[HistoricalCancelId := HistoricalRequestFor(t.contract)])
    decreases HistoricalTries - attempt
  {
    if attempt >= HistoricalTries then Err(NotConnected)
    else if connected(attempt) then
      Ok(t.(requests := t.requests[RequestId() := HistoricalRequestFor(t.contract)]))
    else HistoricalAttempt(t, connected, attempt + 1)
  }

  /** get_historical_data under its retry decorator, `connected(a)` answering
      attempt a's isConnected(). The first connected attempt sends the request
      and records it under id 1, replacing any earlier record; when none of the
      three is connected the exception escapes. Nothing else changes. */
  function GetHistoricalData(t: TraderState, connected: nat -> bool): (r: Result<TraderState>)
    ensures r.Ok? <==> connected(0) || connected(1) || connected(2)
    ensures r.Err? ==> r.error == NotConnected
    // Field by field, the frame stated in one line by the last ensures.
    ensures r.Ok? ==>
      && r.value.requests.Keys == t.requests.Keys + {HistoricalCancelId}
      && r.value.requests[HistoricalCancelId] == HistoricalRequestFor(t.contract)
      && (forall id :: id in t.requests && id != HistoricalCancelId ==> r.value.requests[id] == t.requests[id])
      && r.value.table == t.table && r.value.strategy == t.strategy
      && r.value.contract == t.contract && r.value.warmupPeriod == t.warmupPeriod
    ensures r.Ok? ==> r.value == t.(requests := t.requests[HistoricalCancelId := HistoricalRequestFor(t.contract)])
  {
    var r := HistoricalAttempt(t, connected, 0);
    assert r.Ok? ==> exists a :: 0 <= a < HistoricalTries && connected(a);
    r
  }

  /** get_realtime_data: no retry; raises when not connected, otherwise sends
      the request as id 1 without recording it. */
  function GetRealtimeData(isConnected: bool): (r: Result<int>)
    ensures r.Ok? <==> isConnected
    ensures r.Ok? ==> r.value == RealtimeCancelId
    ensures r.Err? ==> r.error == NotConnected
  {
    if isConnected then Ok(RequestId()) else Err(NotConnected)
  }

  /** What a callback ends in beyond the table change. */
  datatype Effect =
    | StrategyNotRun
    | StrategyRan(signal: Option<Strategy.Signal>)
    | Raised(error: Error)

  datatype Reaction = Reaction(trader: TraderState, effect: Effect)

  /** The readiness gate: the newest row may be incomplete, so the strategy
      runs only once the rows before it exceed the warm-up period. */
  predicate Ready(table: Series.Table, warmupPeriod: int) {
    |table| - 1 > warmupPeriod
  }

  /** Updates never shrink the table, so once the gate has opened every later
      update runs the strategy; the gate opens at warm-up + 2 rows, the newest
      row not being counted. */
  lemma UpdateKeepsGateOpen(t: TraderState, reqId: int, bar: Bars.RawBar)
    ensures Ready(t.table, t.warmupPeriod) ==>
            Ready(HistoricalDataUpdateEvent(t, reqId, bar).trader.table, t.warmupPeriod)
    ensures Ready(t.table, t.warmupPeriod) <==> |t.table| >= t.warmupPeriod + 2
  {
  }

  /** The row an update adds or overwrites, once its bar converted and its
      request is known. */
  function UpdateRow(t: TraderState, reqId: int, bar: Bars.RawBar): Series.Row
    requires Bars.ConvertOneBar(bar).Ok? && reqId in t.requests
  {
    var d := Bars.ConvertOneBar(bar).value;
    Series.Row(Series.Key(t.requests[reqId].contract.symbol, d.date), d.record)
  }

  /** historical_data_update_event. The bar is converted first, then its request
      looked up; either failing raises with the table untouched. Otherwise the
      table is upserted and, if the gate then holds, the strategy runs on it;
      an exception from that point leaves the new table in place. */
  function HistoricalDataUpdateEvent(t: TraderState, reqId: int, bar: Bars.RawBar): (r: Reaction)
    ensures Bars.ConvertOneBar(bar).Err? ==> r == Reaction(t, Raised(Bars.ConvertOneBar(bar).error))
    ensures Bars.ConvertOneBar(bar).Ok? && reqId !in t.requests ==> r == Reaction(t, Raised(UnknownRequest(reqId)))
    ensures Bars.ConvertOneBar(bar).Ok? && reqId in t.requests ==>
      && r.trader == t.(table := Series.Upsert(t.table, UpdateRow(t, reqId, bar)))
      && (r.effect.StrategyNotRun? <==> !Ready(r.trader.table, t.warmupPeriod))
      && (Ready(r.trader.table, t.warmupPeriod) && t.strategy.None? ==> r.effect == Raised(NoStrategy))
    ensures r.effect.StrategyRan? ==>
      && Ready(r.trader.table, t.warmupPeriod) && t.strategy.Some?
      && Strategy.RunStrategy(t.strategy.value, Series.Closes(r.trader.table)) == Ok(r.effect.signal)
    ensures Bars.ConvertOneBar(bar).Ok? && reqId in t.requests && Ready(r.trader.table, t.warmupPeriod)
            && t.strategy.Some? ==>
      r.effect == (match Strategy.RunStrategy(t.strategy.value, Series.Closes(r.trader.table))
                   case Ok(signal) => StrategyRan(signal)
                   case Err(e) => Raised(e))
  {
    match Bars.ConvertOneBar(bar)
    case Err(e) => Reaction(t, Raised(e))
    case Ok(d) =>
      if reqId !in t.requests then Reaction(t, Raised(UnknownRequest(reqId)))
      else
        var updated := t.(table := Series.Upsert(t.table, UpdateRow(t, reqId, bar)));
        if !Ready(updated.table, t.warmupPeriod) then Reaction(updated, StrategyNotRun)
        else
          match t.strategy
          case None => Reaction(updated, Raised(NoStrategy))
          case Some(kind) =>
            match Strategy.RunStrategy(kind, Series.Closes(updated.table))
            case Ok(signal) => Reaction(updated, StrategyRan(signal))
            case Err(e) => Reaction(updated, Raised(e))
  }

  /** With the crossover strategy and the default warm-up of 30, an update that
      passes the gate always reaches buy, sell or do-nothing: the window is long
      enough for both moving averages. */
  lemma WarmedUpUpdateDecides(t: TraderState, reqId: int, bar: Bars.RawBar)
    requires t.warmupPeriod >= 30 && t.strategy == Some(Strategy.SimpleStrategy)
    ensures Bars.ConvertOneBar(bar).Ok? && reqId in t.requests ==>
            var r := HistoricalDataUpdateEvent(t, reqId, bar);
            Ready(r.trader.table, t.warmupPeriod) <==> r.effect.StrategyRan? && r.effect.signal.Some?
  {
    var r := HistoricalDataUpdateEvent(t, reqId, bar);
    if Bars.ConvertOneBar(bar).Ok? && reqId in t.requests && Ready(r.trader.table, t.warmupPeriod) {
      Strategy.WarmedUpRunDecides(Series.Closes(r.trader.table));
    }
  }

  /** Two updates for one request and one bar date leave the table as the
      second alone would: one row for that key, holding the later values. */
  lemma UpdateLastWriteWins(t: TraderState, reqId: int, first: Bars.RawBar, second: Bars.RawBar)
    requires first.date == second.date
    ensures Bars.ConvertOneBar(first).Ok? && Bars.ConvertOneBar(second).Ok? && reqId in t.requests ==>
            var once := HistoricalDataUpdateEvent(t, reqId, first).trader;
            && HistoricalDataUpdateEvent(once, reqId, second).trader.table
               == HistoricalDataUpdateEvent(t, reqId, second).trader.table
            && Series.Lookup(HistoricalDataUpdateEvent(once, reqId, second).trader.table,
                             UpdateRow(t, reqId, second).key)
               == Some(Bars.ConvertOneBar(second).value.record)
  {
    if Bars.ConvertOneBar(first).Ok? && Bars.ConvertOneBar(second).Ok? && reqId in t.requests {
      UpdateLastWriteWinsConverted(t, reqId, first, second);
    }
  }

  lemma UpdateLastWriteWinsConverted(t: TraderState, reqId: int, first: Bars.RawBar, second: Bars.RawBar)
    requires Bars.ConvertOneBar(first).Ok? && Bars.ConvertOneBar(second).Ok? && reqId in t.requests
    requires first.date == second.date
    ensures var once := HistoricalDataUpdateEvent(t, reqId, first).trader;
            && HistoricalDataUpdateEvent(once, reqId, second).trader.table
               == HistoricalDataUpdateEvent(t, reqId, second).trader.table
            && Series.Lookup(HistoricalDataUpdateEvent(once, reqId, second).trader.table,
                             UpdateRow(t, reqId, second).key)
               == Some(Bars.ConvertOneBar(second).value.record)
  {
    var once := HistoricalDataUpdateEvent(t, reqId, first).trader;
    Series.UpsertLastWriteWins(t.table, UpdateRow(t, reqId, first), UpdateRow(t, reqId, second));
    Series.UpsertLookup(t.table, UpdateRow(t, reqId, second), UpdateRow(t, reqId, second).key);
  }

  /** historical_data_end_event. The request is looked up first, then every bar
      converted; a frame built from no bars has no date column to index, so an
      empty batch raises too. Otherwise the batch, tagged with the request's
      symbol, goes after the existing rows. The strategy never runs here. */
  function HistoricalDataEndEvent(t: TraderState, reqId: int, bars: seq<Bars.RawBar>): (r: Reaction)
    ensures !r.effect.StrategyRan?
    ensures reqId !in t.requests ==> r == Reaction(t, Raised(UnknownRequest(reqId)))
    ensures reqId in t.requests && Bars.ConvertBars(bars).Err? ==> r == Reaction(t, Raised(Bars.ConvertBars(bars).error))
    ensures reqId in t.requests && bars == [] ==> r == Reaction(t, Raised(MissingDateColumn))
    ensures r.effect == StrategyNotRun <==> reqId in t.requests && Bars.ConvertBars(bars).Ok? && bars != []
    ensures r.effect == StrategyNotRun ==>
      r.trader == t.(table := Series.AppendBatch(t.table, t.requests[reqId].contract.symbol, Bars.ConvertBars(bars).value))
      && |r.trader.table| == |t.table| + |bars|
  {
    if reqId !in t.requests then Reaction(t, Raised(UnknownRequest(reqId)))
    else
      var symbol := t.requests[reqId].contract.symbol;
      match Bars.ConvertBars(bars)
      case Err(e) => Reaction(t, Raised(e))
      case Ok(dicts) =>
        if dicts == [] then Reaction(t, Raised(MissingDateColumn))
        else Reaction(t.(table := Series.AppendBatch(t.table, symbol, dicts)), StrategyNotRun)
  }

  /** historical_data_event: the bar is only converted for the log line, which
      raises if the conversion does. */
  function HistoricalDataEvent(t: TraderState, reqId: int, bar: Bars.RawBar): (r: Reaction)
    ensures r.trader == t
    ensures r.effect.Raised? <==> Bars.ConvertOneBar(bar).Err?
    ensures !r.effect.StrategyRan?
  {
    match Bars.ConvertOneBar(bar)
    case Err(e) => Reaction(t, Raised(e))
    case Ok(_) => Reaction(t, StrategyNotRun)
  }
}
